=== FILE: README.md ===
# EFPL evaluator, modelled in Dafny

EFPL is a small expression-oriented functional language. A program is a list
of definitions (constants, functions, and functions with guarded
alternatives). Running it applies `main` to no arguments, with the
definition table as the environment. This project models the tree-walking
evaluator of `efpl.py`: the abstract syntax, self-evaluation, list
evaluation, parameter binding, function application under dynamic scope,
guard selection, the fixed operator table, and the program entry point.
The interpreter is written in Python; "the host" below means Python, whose
`str`, `float`, `tuple` and `dict` the interpreter's classes build on.

Modules:

- `Syntax` (syntax.dfy) holds the `Expr` datatype, with one constructor per
  AST class (`Id`, `Num`, `Str`, `List`, `Fn`, `Cases`, `App`), and `Case`.
  An argument list is the `args` sequence of `App`; a parameter list is the
  `pars` sequence of `Fn`.
- `Outcomes` (syntax.dfy) holds `Result`, `Option` (the outcome of a guard
  search), and the errors the evaluator raises:
  - `Arity` for the parameter/argument count mismatch;
  - `NoMatch` for exhausted guards;
  - `NotCallable` for applying a non-function;
  - `BadOperands` for operands the host operator rejects (`TypeError`, `IndexError`);
  - `DivByZero`;
  - `OutOfFuel`.
- `OperatorTable` (operators.dfy) holds the ten operators:
  - the host's equality on values, `ValueEq`;
  - the host's ordering, `Cmp`, where texts compare by code point and lists compare like tuples;
  - arithmetic on numbers.
- `Binding` (binding.dfy) builds tables from (key, value) pairs, where a later
  pair wins. It holds `Bind`, the parameter bindings of a call, and `Extend`,
  the caller's table overridden by those bindings.
- `Evaluator` (evaluator.dfy) defines `Eval`, `EvalList`, `Matches`,
  `FirstMatch` and `Apply`. They are mutually recursive and bounded by `fuel`,
  the depth of nested function calls. Running out of fuel stands for the
  host's recursion limit.
- `EvaluatorProperties` (evaluator_properties.dfy) holds the general properties
  of evaluation.
- `Program` (program.dfy) holds the definition table and the entry point.
- `Scenarios` (scenarios.dfy) states the result of whole programs under the
  model. Each program is built as a tree directly. All but one are the trees
  the parser builds for the source quoted with them. `OperatorRedefined`
  binds `+`, a name no definition can have (efpl.py:156). Every call but the
  entry application has an argument, because the grammar requires at least
  one (efpl.py:144); a zero-argument call is reachable only through the
  entry application of `main` (efpl.py:168).

Where descriptions of EFPL and the code differ, the model follows the code:

- **Evaluation order.** The callee is evaluated before the arguments
  (efpl.py:91-92), for operators too.
- **Operator arity.** An operator uses its first two arguments and ignores
  any others (efpl.py:97-106). Fewer than two is an error.
- **Lookup by text.** The table is a host dictionary, so a string is found
  under the identifier with the same text: `"x"` evaluates to the binding of
  `x` (efpl.py:7-8, efpl.py:14, efpl.py:22).
- **Constants are not evaluated.** A constant is bound to its expression as
  written, and evaluating the name yields that expression unevaluated.

## Model

| member | source | states |
|---|---|---|
| `EvaluatorProperties.SelfEvaluation` | efpl.py:6-10 | An identifier, number, string or function evaluates to the binding of its key when the table has one, and to itself otherwise. The key of a string or identifier is the identifier with its text. Self-evaluation never fails and needs no fuel. |
| `EvaluatorProperties.StringFindsIdentifierBinding` | efpl.py:6-10 | A string literal evaluates to the same binding as the identifier with its text. When that identifier is unbound, each evaluates to itself. |
| `EvaluatorProperties.EvalListPointwise` | efpl.py:27-28 | A list of expressions evaluates successfully exactly when every element does. The i-th value is then the value of the i-th element under the same table. |
| `EvaluatorProperties.EvalListFirstError` | efpl.py:27-28 | A failing list fails with the error of its first failing element, and every earlier element succeeded. |
| `EvaluatorProperties.ListEvaluation` | efpl.py:26-28 | A `List` node evaluates to a list of the same length whose i-th element is the i-th element's value. It fails exactly when some element fails. |
| `Binding.Bind` | efpl.py:46-49 | Binding parameters fails exactly when the parameter and argument counts differ, and the error carries both lists. |
| `Binding.BindBindsParameters` | efpl.py:46-49 | With equal counts, binding succeeds. The table binds exactly the parameter identifiers, and each parameter maps to the argument at its position, or at its last position if the name repeats. |
| `Binding.FromPairsBindsLast` | efpl.py:49 | A table built from pairs has exactly the pairs' keys, and each key maps to the value of the last pair with that key. |
| `Binding.Extend` | efpl.py:58 | The table a body runs under has the caller's keys plus the parameters. A parameter's binding wins, and every other caller binding is kept. |
| `EvaluatorProperties.FunctionCall` | efpl.py:57-58 | Calling a function value fails with `Arity` on a count mismatch. Otherwise it yields the body's value under a table that: has exactly the caller's keys plus the parameters; binds each parameter to its argument; keeps every other caller binding. |
| `EvaluatorProperties.CallEnvironment` | efpl.py:58 | The caller's table overridden by the parameter bindings has the keys and values that `FunctionCall` describes. |
| `EvaluatorProperties.ParameterShadows` | efpl.py:58 | A function whose body is one of its parameters returns that parameter's argument, whatever the caller binds. |
| `EvaluatorProperties.DynamicScope` | efpl.py:58 | A function whose body names a non-parameter identifier sees the caller's binding of it (no closure), or the identifier itself if unbound. |
| `EvaluatorProperties.NotCallableValue` | efpl.py:11-12 | When the callee is not an operator identifier and its value is not a function, the application fails with `NotCallable`, naming that value and the argument values. |
| `EvaluatorProperties.CalleeBeforeArguments` | efpl.py:90-92 | The callee is evaluated first, and its failure is the application's failure. An argument failure is reported only after the callee succeeded. |
| `EvaluatorProperties.OperatorsNotShadowable` | efpl.py:96-106 | When the unevaluated callee is an operator identifier, the result is the operator applied to the argument values, whatever the table binds that identifier to. |
| `EvaluatorProperties.TruthyIsTrue` | efpl.py:69 | A guard condition holds exactly when its value is the identifier `true` or the string "true", which the host compares equal to it. |
| `EvaluatorProperties.GuardSelected` | efpl.py:77-81 | If alternative i is the first whose condition holds, and all earlier conditions evaluated and failed, the guarded body yields alternative i's body value. |
| `EvaluatorProperties.FirstMatchSelected` | efpl.py:68-81 | Same as `GuardSelected`, stated for the alternative search itself. |
| `EvaluatorProperties.GuardsExhausted` | efpl.py:77-82 | When every condition evaluates and fails, the guarded body fails with `NoMatch`, naming the table and the alternatives. |
| `EvaluatorProperties.FirstMatchNone` | efpl.py:77-82 | The search finds no alternative exactly when every condition evaluates and fails. |
| `EvaluatorProperties.FirstMatchRaises` | efpl.py:68-80 | A condition that raises, after every earlier condition evaluated and failed, makes the search fail with that error. |
| `EvaluatorProperties.GuardConditionRaises` | efpl.py:68-80 | Such a raising condition ends the guarded body with its error, and later alternatives are not tried. |
| `EvaluatorProperties.GuardSound` | efpl.py:77-81 | A guarded body that succeeds yields the body value of some alternative i: its condition holds, and every earlier condition evaluated and failed. |
| `EvaluatorProperties.FirstMatchFound` | efpl.py:77-81 | Same as `GuardSound`, stated for the alternative search itself. |
| `EvaluatorProperties.EvalFuelMonotone` | efpl.py:57-58 | Raising the call-depth bound never changes an evaluation that finished without reaching it. |
| `EvaluatorProperties.ApplyFuelMonotone` | efpl.py:57-58 | Raising the call-depth bound never changes an application that finished without reaching it. |
| `OperatorTable.ApplyOperator` | efpl.py:94-106 | Fewer than two operands is an error. `==` and `<>` always succeed on two operands. A successful comparison yields exactly `true` or `false`. Successful arithmetic has numeric operands and yields a number. A rejection names the operator and the first two operands. |
| `OperatorTable.OperatorUsesFirstTwo` | efpl.py:97-106 | Operands beyond the second do not affect the result. |
| `OperatorTable.NotEqualNegatesEqual` | efpl.py:97-98 | `<>` is `true` exactly when `==` is `false`. |
| `OperatorTable.MirroredComparisons` | efpl.py:99-102 | `a > b` behaves as `b < a` and `a >= b` as `b <= a`, including when the operands cannot be ordered. |
| `OperatorTable.LessEqualIsLessOrEqual` | efpl.py:99-101 | Where `<=` succeeds, it holds exactly when `<` or `==` holds, and `<` and `==` never both hold. |
| `OperatorTable.NumberComparisons` | efpl.py:97-102 | Numbers compare by value under every comparison operator. |
| `OperatorTable.ArithmeticRoundTrip` | efpl.py:103-106 | Subtracting `y` undoes adding it. Dividing by a nonzero `y` undoes multiplying by it. Dividing by zero is an error. |
| `OperatorTable.ValueEqReflexive` | efpl.py:97 | Every value equals itself under `==`. |
| `OperatorTable.ValueEqSymmetric` | efpl.py:97 | `==` is symmetric. |
| `OperatorTable.ValueEqTransitive` | efpl.py:97 | `==` is transitive. |
| `OperatorTable.ValueEqText` | efpl.py:14-22 | A value equals the identifier `t` exactly when it is that identifier or the string with text `t`. |
| `OperatorTable.CmpEqIsValueEq` | efpl.py:97-102 | Where two values can be ordered, they compare equal exactly when `==` holds of them. |
| `OperatorTable.CmpFlip` | efpl.py:99-102 | Swapping the operands swaps less and greater, and keeps refusals. |
| `Program.TableBindsLastDefinition` | efpl.py:134 | The definition table binds exactly the defined names, each to the value of its last definition. |
| `Program.LaterDefinitionReplaces` | efpl.py:134 | Appending a definition rebinds its name and changes nothing else. |
| `Program.RunCallsMain` | efpl.py:168-169 | Running a program applies `main` to no arguments under the definition table. A missing or non-function `main` is not callable, and a `main` with parameters is an arity error. Otherwise the result is its body's value under the table, given call depth left. |
| `Scenarios.SumOfProduct` | efpl.py:103-105 | The tree for `main() = a + b * c` yields a + (b * c). |
| `Scenarios.ProductOfSum` | efpl.py:103-105 | The tree for `main() = (a + b) * c` yields (a + b) * c. |
| `Scenarios.GuardOrder` | efpl.py:77-81 | `sign`, whose first alternative is `x <= 0` giving "neg" and whose second is `true` giving "pos", yields "neg" for n <= 0 and "pos" otherwise. |
| `Scenarios.GuardNoMatch` | efpl.py:82 | `one`, whose only alternative is `x == k` giving 1, fails with `NoMatch` for an argument other than k, and the error carries the call's table. |
| `Scenarios.ArityMismatch` | efpl.py:47-48 | A two-parameter function called with one argument fails with an arity error naming both parameters. |
| `Scenarios.OperatorRedefined` | efpl.py:96-103 | A table that binds `+` to a user function, which no parsed definition can do, does not change what `1 + 2` yields. |
| `Scenarios.ParameterShadowsConstant` | efpl.py:58 | With `x = m` and `f(x) = x`, `main() = [f(n), x]` yields [n, m]. |
| `Scenarios.DynamicScoping` | efpl.py:58 | With `g(u) = y` and `f(y) = g(0)`, `f(n)` yields n, because `g` sees its caller's parameter. |
| `Scenarios.UnboundIdentifier` | efpl.py:6-10 | With `g(u) = y`, `main() = g(0)` yields the identifier `y` itself. |
| `Scenarios.LastDefinitionRuns` | efpl.py:134 | Of two definitions of `main`, the later one runs. |
| `Scenarios.ConstantsAreNotEvaluated` | efpl.py:6-8 | With `c = 1 + 2`, `main() = c` yields the expression `1 + 2` as written, not 3. |
| `Scenarios.StringNamesDefinition` | efpl.py:7-8 | With `x = n`, `main() = "x"` yields n. |
| `Scenarios.NumberNotCallable` | efpl.py:11-12 | With `x = 5`, `main() = x(1)` fails with `NotCallable` naming 5 and the argument. |
| `Scenarios.EndlessRecursion` | efpl.py:57-58 | `loop(u) = loop(u)`, called as `loop(0)`, runs out of the call-depth bound, whatever the bound. |
| `Scenarios.OperatorExamples` | efpl.py:97-106 | These hold: `"abc" < "abd"`; `2 >= 3` is false; an identifier equals the string of its text; `2 < "a"` is rejected; `2 / 0` is an error. |

## Left out

- Parsing: the Lark grammar and the transformer (efpl.py:113-163) come from a
  third-party parser library. Programs are built as trees directly. `Infix`
  and `Call` in `Scenarios` build the trees the transformer produces, so
  operator precedence is not modelled.
- The transformer's dead code is not modelled:
  - `fn_guards` calls an undefined `Fn_guards` (efpl.py:122);
  - `Const` is never used (efpl.py:34-39).
- Printing: `__str__`/`__repr__` are not modelled. They are not only for
  display: the messages of the no-match, arity and not-callable exceptions
  format the table, the alternatives, the arguments and the callee with them
  (efpl.py:12, efpl.py:48, efpl.py:82). `Str.__str__` (efpl.py:24) reads an
  attribute that does not exist, so `str` of a string literal raises
  `AttributeError`; its `repr` does not. A message therefore fails with
  `AttributeError` when it applies `str` to a string literal, which happens
  where:
  - the applied value itself is a string (efpl.py:12);
  - a string is the only element of a one-element list or argument list
    printed with `str` (efpl.py:30-31), including a call's arguments
    printed by `App.__str__` (efpl.py:89);
  - a string is a function's body (`Fn.__repr__`, efpl.py:56), an
    alternative's condition or body (`Case.__str__`, efpl.py:67) or an infix
    operand (`App_infix.__str__`, efpl.py:111), and that function,
    alternative or application is printed.

  A string reached only through `repr` formats without error: a string bound
  in the table (the table is printed as a dictionary at efpl.py:82), and an
  element of a list or argument list with zero or at least two elements
  (efpl.py:32). Where the message fails, the model still reports the
  `NoMatch`, `Arity` or `NotCallable` error. The scenarios that end in one
  of these errors contain no string literal.
- The command-line driver (efpl.py:171-204) does file I/O, timing and
  printing, and is not modelled.
- `App_infix` (efpl.py:109-111) differs from `App` only in printing, so it is
  not a separate constructor.
- Numbers are exact reals, not host floats. There is no rounding, infinity,
  NaN or `%g` formatting. Division by zero, an exception in the host, is the
  `DivByZero` error.
- `OperatorTable.ValueEq` compares `Fn` and `App` nodes structurally. The
  host has no equality for those classes and compares the objects by
  identity. Both reach `==` as values: a function through its name, and an
  application through a constant, which is bound unevaluated (efpl.py:7-8,
  efpl.py:114). With `a = 1 + 2` and `b = 1 + 2`, `a == b` is false in the
  host and true here, and `[a] < [b]` is a `TypeError` in the host (the two
  elements differ, and `App` has no ordering) but false here. The model
  agrees with the host wherever the operands contain no `Fn` or `App` node,
  and wherever they are the very same definition's value.
- `+` on two texts concatenates them in the host and then converts the result
  to a float. That fails unless the text is numeric (`"1" + "2"` gives 12).
  The model rejects any non-numeric operand with `BadOperands`.
- The host compares the first differing elements of two lists with the
  operator itself; the model uses a three-way comparison of that pair. The two
  agree wherever the elements are numbers, texts or lists of them.
- Errors carry the offending values rather than the host's message text.
- Fuel counts nested function calls only. The host's recursion limit also
  counts deeply nested expressions, which the model evaluates without limit.
- Table keys other than identifiers never occur, because definitions and
  parameters only bind identifiers. Lookup of a number or function is
  therefore structural. A list never looks itself up: it evaluates its
  elements.

=== FILE: binding.dfy ===
/**
 Environments of EFPL: tables from AST values to bound values. A table is
 built from a sequence of (key, value) pairs, where a later pair for the same
 key replaces an earlier one; that one rule builds both the parameter
 bindings of a call and the top-level definition table. A call extends the
 caller's table with its parameter bindings without changing the caller's.
 */
module Binding {
  import opened Syntax
  import opened Outcomes

  type Env = map<Expr, Expr>

  /** Pair `i` is the last one in `ps` with its key. */
  ghost predicate LastForKey(ps: seq<(Expr, Expr)>, i: int)
    requires 0 <= i < |ps|
  {
    forall j :: i < j < |ps| ==> ps[j].0 != ps[i].0
  }

  /** The table built from pairs in order; a later pair overrides an earlier one with the same key. */
  function FromPairs(ps: seq<(Expr, Expr)>): Env
    decreases |ps|
  {
    if |ps| == 0 then map[] else FromPairs(ps[..|ps| - 1])[ps[|ps| - 1].0 := ps[|ps| - 1].1]
  }

  /** The keys are those of the pairs, and each key is bound to the value of its last pair. */
  lemma FromPairsBindsLast(ps: seq<(Expr, Expr)>)
    ensures FromPairs(ps).Keys == set i | 0 <= i < |ps| :: ps[i].0
    ensures forall i :: 0 <= i < |ps| && LastForKey(ps, i) ==> FromPairs(ps)[ps[i].0] == ps[i].1
  {
    FromPairsKeys(ps);
    FromPairsValues(ps);
  }

  lemma {:induction false} FromPairsKeys(ps: seq<(Expr, Expr)>)
    ensures FromPairs(ps).Keys == set i | 0 <= i < |ps| :: ps[i].0
    decreases |ps|
  {
    if |ps| > 0 {
      var init, last := ps[..|ps| - 1], ps[|ps| - 1];
      FromPairsKeys(init);
      assert FromPairs(ps) == FromPairs(init)[last.0 := last.1];
      assert forall i :: 0 <= i < |init| ==> init[i] == ps[i];
      assert FromPairs(init).Keys == set i | 0 <= i < |ps| - 1 :: ps[i].0;
    }
  }

  lemma {:induction false} FromPairsValues(ps: seq<(Expr, Expr)>)
    ensures forall i :: 0 <= i < |ps| && LastForKey(ps, i) ==> ps[i].0 in FromPairs(ps) && FromPairs(ps)[ps[i].0] == ps[i].1
    decreases |ps|
  {
    if |ps| > 0 {
      var init, last := ps[..|ps| - 1], ps[|ps| - 1];
      FromPairsValues(init);
      var m, r := FromPairs(init), FromPairs(ps);
      assert r == m[last.0 := last.1];
      forall i | 0 <= i < |ps| && LastForKey(ps, i) ensures ps[i].0 in r && r[ps[i].0] == ps[i].1 {
        if i < |ps| - 1 {
          assert init[i] == ps[i];
          assert LastForKey(init, i);
        }
      }
    }
  }

  /** Parameter `i` is the last occurrence of its name. */
  predicate LastParameter(pars: seq<string>, i: int)
    requires 0 <= i < |pars|
  {
    pars[i] !in pars[i + 1..]
  }

  /** The identifiers a parameter list binds. */
  function ParamKeys(pars: seq<string>): set<Expr> {
    set p | p in pars :: Id(p)
  }

  /** Pairs each parameter identifier with the argument at the same position. */
  function Zip(pars: seq<string>, args: seq<Expr>): (ps: seq<(Expr, Expr)>)
    requires |pars| == |args|
  {
    seq(|pars|, i requires 0 <= i < |pars| => (Id(pars[i]), args[i]))
  }

  /**
   The parameter bindings of a call: fails when the numbers of parameters and
   arguments differ, and otherwise binds each parameter to the argument at its
   position (a repeated parameter name takes its last position's argument).
   */
  function Bind(pars: seq<string>, args: seq<Expr>): (r: Result<Env>)
    ensures r.Err? <==> |pars| != |args|
    ensures r.Err? ==> r.error == Arity(pars, args)
  {
    if |pars| != |args| then Err(Arity(pars, args)) else Ok(FromPairs(Zip(pars, args)))
  }

  /** A successful binding binds exactly the parameters, each to the argument at its last position. */
  lemma BindBindsParameters(pars: seq<string>, args: seq<Expr>)
    requires |pars| == |args|
    ensures Bind(pars, args).Ok?
    ensures Bind(pars, args).value.Keys == ParamKeys(pars)
    ensures forall i :: 0 <= i < |pars| && LastParameter(pars, i) ==> Bind(pars, args).value[Id(pars[i])] == args[i]
  {
    var ps := Zip(pars, args);
    var m := FromPairs(ps);
    FromPairsBindsLast(ps);
    assert m.Keys == ParamKeys(pars) by {
      forall p | p in pars ensures Id(p) in m.Keys {
        var i :| 0 <= i < |pars| && pars[i] == p;
        assert ps[i].0 == Id(p);
      }
    }
    forall i | 0 <= i < |pars| && LastParameter(pars, i)
      ensures m[Id(pars[i])] == args[i]
    {
      forall j | i < j < |ps| ensures ps[j].0 != ps[i].0 {
        assert pars[j] == pars[i + 1..][j - i - 1];
      }
      assert LastForKey(ps, i);
    }
  }

  /**
   The table a function body runs under: the caller's table overridden by the
   parameter bindings. Every other caller binding stays visible.
   */
  function Extend(env: Env, bindings: Env): (r: Env)
    ensures r.Keys == env.Keys + bindings.Keys
    ensures forall k :: k in bindings ==> r[k] == bindings[k]
    ensures forall k :: k in env && k !in bindings ==> r[k] == env[k]
  {
    env + bindings
  }

  /** A repeated key among the pairs ends up bound to its last value, not to any earlier one. */
  lemma {:induction false} AppendOverrides(ps: seq<(Expr, Expr)>, k: Expr, v: Expr)
    ensures FromPairs(ps + [(k, v)]) == FromPairs(ps)[k := v]
  {
    assert (ps + [(k, v)])[..|ps|] == ps;
  }
}

=== FILE: evaluator.dfy ===
/**
 The tree-walking evaluator of EFPL.

 `Eval(e, env, fuel)` reduces `e` under the table `env`:
 - identifiers, numbers, strings and functions evaluate to their binding when
   they are a key of the table and to themselves otherwise (a string is found
   under the identifier of the same text);
 - a list evaluates each element, in order, under the same table;
 - a guarded body yields the body of the first alternative whose condition
   evaluates to the value `true`, and fails when none does;
 - an application evaluates its callee, then its arguments, and then either
   applies an operator (when the unevaluated callee is an operator
   identifier) or applies the callee's value to the arguments under the
   CALLER's table extended with the parameter bindings (dynamic scope).

 `fuel` bounds the depth of nested function applications; reaching the bound
 is the `OutOfFuel` error, the model of Python's recursion limit.
 */
module Evaluator {
  import opened Syntax
  import opened Outcomes
  import opened OperatorTable
  import opened Binding

  /** A value satisfies a guard when it equals the identifier `true`. */
  predicate Truthy(v: Expr) {
    ValueEq(v, True)
  }

  /**
   The key `e` is looked up under. The Python dictionary that holds the
   table hashes and compares an identifier and a string of the same text
   alike, so a string finds the binding of the identifier spelled the same
   way.
   */
  function Key(e: Expr): Expr {
    if IsText(e) then Id(TextOf(e)) else e
  }

  /** Self-evaluation: the binding of `e`'s key if there is one, else `e` itself. */
  function Lookup(e: Expr, env: Env): Expr {
    if Key(e) in env then env[Key(e)] else e
  }

  function Eval(e: Expr, env: Env, fuel: nat): Result<Expr>
    decreases fuel, 1, e
  {
    match e
    case Id(_) => Ok(Lookup(e, env))
    case Num(_) => Ok(Lookup(e, env))
    case Str(_) => Ok(Lookup(e, env))
    case Fn(_, _) => Ok(Lookup(e, env))
    case List(items) =>
      var vs :- EvalList(items, env, fuel);
      Ok(List(vs))
    case Cases(cs) =>
      var m :- FirstMatch(cs, env, fuel);
      if m.Some? then Ok(m.value) else Err(NoMatch(env, cs))
    case App(callee, args) =>
      var f :- Eval(callee, env, fuel);
      var vs :- EvalList(args, env, fuel);
      if callee.Id? && callee.name in Operators then ApplyOperator(callee.name, vs)
      else Apply(f, vs, env, fuel)
  }

  /** Evaluates the elements left to right; the first failure ends it. */
  function EvalList(es: seq<Expr>, env: Env, fuel: nat): (r: Result<seq<Expr>>)
    ensures r.Ok? ==> |r.value| == |es|
    decreases fuel, 1, es
  {
    if |es| == 0 then Ok([])
    else
      var v :- Eval(es[0], env, fuel);
      var vs :- EvalList(es[1..], env, fuel);
      Ok([v] + vs)
  }

  /** One alternative: its body's value when its condition is truthy, None when it is not. */
  function Matches(c: Case, env: Env, fuel: nat): Result<Option<Expr>>
    decreases fuel, 1, c
  {
    var v :- Eval(c.cond, env, fuel);
    if Truthy(v) then
      var r :- Eval(c.body, env, fuel);
      Ok(Some(r))
    else Ok(None)
  }

  /** The first alternative that matches, in declaration order; None when none does. */
  function FirstMatch(cs: seq<Case>, env: Env, fuel: nat): Result<Option<Expr>>
    decreases fuel, 1, cs
  {
    if |cs| == 0 then Ok(None)
    else
      var m :- Matches(cs[0], env, fuel);
      if m.Some? then Ok(m) else FirstMatch(cs[1..], env, fuel)
  }

  /**
   Applies a callee value to evaluated arguments under the caller's table.
   Only a function can be applied; its body runs under the caller's table
   overridden by the parameter bindings.
   */
  function Apply(f: Expr, vs: seq<Expr>, env: Env, fuel: nat): Result<Expr>
    decreases fuel, 0
  {
    match f
    case Fn(pars, body) =>
      var bindings :- Bind(pars, vs);
      if fuel == 0 then Err(OutOfFuel) else Eval(body, Extend(env, bindings), fuel - 1)
    case _ => Err(NotCallable(f, vs))
  }
}

=== FILE: evaluator_properties.dfy ===
/**
 Properties of the EFPL evaluator: self-evaluation, list mapping, guard
 selection, operator dispatch, dynamic scoping of calls, and that the call
 depth bound only ever cuts an evaluation short.
 */
module EvaluatorProperties {
  import opened Syntax
  import opened Outcomes
  import opened OperatorTable
  import opened Binding
  import opened Evaluator

  // ---------------------------------------------------------------------------
  // Self-evaluation

  /**
   Identifiers, numbers, strings and functions evaluate to their binding, or
   else to themselves; evaluation never fails and never consumes fuel. A
   string is looked up under the identifier with its text.
   */
  lemma SelfEvaluation(v: Expr, env: Env, fuel: nat)
    requires SelfEvaluating(v)
    ensures !IsText(v) && v in env ==> Eval(v, env, fuel) == Ok(env[v])
    ensures IsText(v) && Id(TextOf(v)) in env ==> Eval(v, env, fuel) == Ok(env[Id(TextOf(v))])
    ensures !IsText(v) && v !in env ==> Eval(v, env, fuel) == Ok(v)
    ensures IsText(v) && Id(TextOf(v)) !in env ==> Eval(v, env, fuel) == Ok(v)
    ensures Eval(v, env, fuel) == Eval(v, env, 0)
  {
  }

  /** A string literal and the identifier with the same text evaluate to the same binding when there is one. */
  lemma StringFindsIdentifierBinding(t: string, env: Env, fuel: nat)
    ensures Id(t) in env ==> Eval(Str(t), env, fuel) == Eval(Id(t), env, fuel)
    ensures Id(t) !in env ==> Eval(Str(t), env, fuel) == Ok(Str(t)) && Eval(Id(t), env, fuel) == Ok(Id(t))
  {
  }

  // ---------------------------------------------------------------------------
  // Lists

  /** Element-wise evaluation succeeds exactly when every element does, and then maps position to position. */
  lemma {:induction false} EvalListPointwise(es: seq<Expr>, env: Env, fuel: nat)
    ensures EvalList(es, env, fuel).Ok? <==> forall i :: 0 <= i < |es| ==> Eval(es[i], env, fuel).Ok?
    ensures EvalList(es, env, fuel).Ok? ==>
      forall i :: 0 <= i < |es| ==> EvalList(es, env, fuel).value[i] == Eval(es[i], env, fuel).value
    decreases es
  {
    if |es| > 0 {
      EvalListPointwise(es[1..], env, fuel);
      forall i | 1 <= i < |es| ensures es[i] == es[1..][i - 1] { }
    }
  }

  /** A failing element list fails with the error of its first failing element. */
  lemma {:induction false} EvalListFirstError(es: seq<Expr>, env: Env, fuel: nat)
    requires EvalList(es, env, fuel).Err?
    ensures exists i ::
      && 0 <= i < |es|
      && Eval(es[i], env, fuel) == Err(EvalList(es, env, fuel).error)
      && forall j :: 0 <= j < i ==> Eval(es[j], env, fuel).Ok?
    decreases es
  {
    if Eval(es[0], env, fuel).Err? {
      assert Eval(es[0], env, fuel) == Err(EvalList(es, env, fuel).error);
    } else {
      EvalListFirstError(es[1..], env, fuel);
      var i :| 0 <= i < |es[1..]| && Eval(es[1..][i], env, fuel) == Err(EvalList(es[1..], env, fuel).error) &&
        forall j :: 0 <= j < i ==> Eval(es[1..][j], env, fuel).Ok?;
      assert forall j :: 0 <= j < i + 1 ==> Eval(es[j], env, fuel).Ok? by {
        forall j | 1 <= j < i + 1 ensures Eval(es[j], env, fuel).Ok? {
          assert es[j] == es[1..][j - 1];
        }
      }
      assert es[i + 1] == es[1..][i];
    }
  }

  /** A list evaluates to the list of its elements' values: same length, same order, same table. */
  lemma ListEvaluation(es: seq<Expr>, env: Env, fuel: nat)
    ensures Eval(List(es), env, fuel).Ok? <==> forall i :: 0 <= i < |es| ==> Eval(es[i], env, fuel).Ok?
    ensures Eval(List(es), env, fuel).Ok? ==>
      && Eval(List(es), env, fuel).value.List?
      && |Eval(List(es), env, fuel).value.items| == |es|
      && forall i :: 0 <= i < |es| ==> Eval(List(es), env, fuel).value.items[i] == Eval(es[i], env, fuel).value
  {
    EvalListPointwise(es, env, fuel);
  }

  // ---------------------------------------------------------------------------
  // Guards

  /** Guard matching accepts exactly the identifier `true` and, as text, the string "true". */
  lemma TruthyIsTrue(v: Expr)
    ensures Truthy(v) <==> v == Id("true") || v == Str("true")
  {
    ValueEqText(v, "true");
  }

  ghost predicate CondHolds(c: Case, env: Env, fuel: nat) {
    Eval(c.cond, env, fuel).Ok? && Truthy(Eval(c.cond, env, fuel).value)
  }

  ghost predicate CondFails(c: Case, env: Env, fuel: nat) {
    Eval(c.cond, env, fuel).Ok? && !Truthy(Eval(c.cond, env, fuel).value)
  }

  /** Alternative `i` is the first whose condition holds; every earlier condition evaluated and did not. */
  ghost predicate Selects(cs: seq<Case>, env: Env, fuel: nat, i: int) {
    && 0 <= i < |cs|
    && (forall j :: 0 <= j < i ==> CondFails(cs[j], env, fuel))
    && CondHolds(cs[i], env, fuel)
  }

  lemma SelectsShift(cs: seq<Case>, env: Env, fuel: nat, i: int)
    requires 0 < i && Selects(cs, env, fuel, i)
    ensures Selects(cs[1..], env, fuel, i - 1)
  {
    forall j | 0 <= j < i - 1 ensures CondFails(cs[1..][j], env, fuel) {
      assert cs[1..][j] == cs[j + 1];
    }
  }

  lemma SelectsUnshift(cs: seq<Case>, env: Env, fuel: nat, i: int)
    requires |cs| > 0 && CondFails(cs[0], env, fuel) && Selects(cs[1..], env, fuel, i)
    ensures Selects(cs, env, fuel, i + 1)
  {
    forall j | 1 <= j < i + 1 ensures CondFails(cs[j], env, fuel) {
      assert cs[j] == cs[1..][j - 1];
    }
  }

  lemma {:induction false} FirstMatchSelected(cs: seq<Case>, env: Env, fuel: nat, i: int)
    requires Selects(cs, env, fuel, i)
    ensures var r := Eval(cs[i].body, env, fuel);
      FirstMatch(cs, env, fuel) == if r.Ok? then Ok(Some(r.value)) else Err(r.error)
    decreases i
  {
    if i > 0 {
      SelectsShift(cs, env, fuel, i);
      FirstMatchSelected(cs[1..], env, fuel, i - 1);
    }
  }

  /** The selected alternative's body supplies the result of a guarded body. */
  lemma GuardSelected(cs: seq<Case>, env: Env, fuel: nat, i: int)
    requires Selects(cs, env, fuel, i)
    ensures Eval(Cases(cs), env, fuel) == Eval(cs[i].body, env, fuel)
  {
    FirstMatchSelected(cs, env, fuel, i);
  }

  /** No alternative matches exactly when every condition evaluates to something other than `true`. */
  lemma {:induction false} FirstMatchNone(cs: seq<Case>, env: Env, fuel: nat)
    ensures FirstMatch(cs, env, fuel) == Ok(None) <==> forall j :: 0 <= j < |cs| ==> CondFails(cs[j], env, fuel)
    decreases cs
  {
    if |cs| > 0 {
      FirstMatchNone(cs[1..], env, fuel);
      if forall j :: 0 <= j < |cs| ==> CondFails(cs[j], env, fuel) {
        assert forall j :: 0 <= j < |cs[1..]| ==> CondFails(cs[1..][j], env, fuel) by {
          forall j | 0 <= j < |cs[1..]| ensures CondFails(cs[1..][j], env, fuel) {
            assert cs[1..][j] == cs[j + 1];
          }
        }
      }
      if FirstMatch(cs, env, fuel) == Ok(None) {
        forall j | 1 <= j < |cs| ensures CondFails(cs[j], env, fuel) {
          assert cs[j] == cs[1..][j - 1];
        }
      }
    }
  }

  /** When every condition evaluates to something other than `true`, the guarded body fails with no match. */
  lemma GuardsExhausted(cs: seq<Case>, env: Env, fuel: nat)
    requires forall j :: 0 <= j < |cs| ==> CondFails(cs[j], env, fuel)
    ensures Eval(Cases(cs), env, fuel) == Err(NoMatch(env, cs))
  {
    FirstMatchNone(cs, env, fuel);
  }

  /** Condition `i` fails to evaluate after every earlier condition evaluated to something other than `true`. */
  ghost predicate RaisesAt(cs: seq<Case>, env: Env, fuel: nat, i: int) {
    && 0 <= i < |cs|
    && (forall j :: 0 <= j < i ==> CondFails(cs[j], env, fuel))
    && Eval(cs[i].cond, env, fuel).Err?
  }

  lemma {:induction false} FirstMatchRaises(cs: seq<Case>, env: Env, fuel: nat, i: int)
    requires RaisesAt(cs, env, fuel, i)
    ensures FirstMatch(cs, env, fuel) == Err(Eval(cs[i].cond, env, fuel).error)
    decreases i
  {
    if i > 0 {
      forall j | 0 <= j < i - 1 ensures CondFails(cs[1..][j], env, fuel) {
        assert cs[1..][j] == cs[j + 1];
      }
      assert cs[1..][i - 1] == cs[i];
      FirstMatchRaises(cs[1..], env, fuel, i - 1);
    }
  }

  /**
   A condition that fails to evaluate, reached before any alternative matched,
   ends the guarded body with its error; later alternatives are not tried.
   */
  lemma GuardConditionRaises(cs: seq<Case>, env: Env, fuel: nat, i: int)
    requires RaisesAt(cs, env, fuel, i)
    ensures Eval(Cases(cs), env, fuel) == Err(Eval(cs[i].cond, env, fuel).error)
  {
    FirstMatchRaises(cs, env, fuel, i);
  }

  lemma {:induction false} FirstMatchFound(cs: seq<Case>, env: Env, fuel: nat)
    requires FirstMatch(cs, env, fuel).Ok? && FirstMatch(cs, env, fuel).value.Some?
    ensures exists i ::
      && Selects(cs, env, fuel, i)
      && Eval(cs[i].body, env, fuel) == Ok(FirstMatch(cs, env, fuel).value.value)
    decreases cs
  {
    var v := Eval(cs[0].cond, env, fuel);
    if Truthy(v.value) {
      assert Selects(cs, env, fuel, 0);
    } else {
      FirstMatchFound(cs[1..], env, fuel);
      var i :| Selects(cs[1..], env, fuel, i) &&
        Eval(cs[1..][i].body, env, fuel) == Ok(FirstMatch(cs[1..], env, fuel).value.value);
      SelectsUnshift(cs, env, fuel, i);
      assert cs[1..][i] == cs[i + 1];
    }
  }

  /** A guarded body that succeeds took its value from the first alternative whose condition held. */
  lemma GuardSound(cs: seq<Case>, env: Env, fuel: nat)
    requires Eval(Cases(cs), env, fuel).Ok?
    ensures exists i :: Selects(cs, env, fuel, i) && Eval(Cases(cs), env, fuel) == Eval(cs[i].body, env, fuel)
  {
    FirstMatchFound(cs, env, fuel);
  }

  // ---------------------------------------------------------------------------
  // Application

  /** The callee is evaluated before the arguments, and the first failure is the result. */
  lemma CalleeBeforeArguments(callee: Expr, args: seq<Expr>, env: Env, fuel: nat)
    ensures Eval(callee, env, fuel).Err? ==> Eval(App(callee, args), env, fuel) == Eval(callee, env, fuel)
    ensures Eval(callee, env, fuel).Ok? && EvalList(args, env, fuel).Err? ==>
      Eval(App(callee, args), env, fuel) == Err(EvalList(args, env, fuel).error)
  {
  }

  /**
   An operator identifier in callee position always means the operator: its
   result comes from the argument values alone, whatever the table binds
   that identifier to.
   */
  lemma OperatorsNotShadowable(op: string, args: seq<Expr>, env: Env, fuel: nat)
    requires op in Operators && EvalList(args, env, fuel).Ok?
    ensures Eval(App(Id(op), args), env, fuel) == ApplyOperator(op, EvalList(args, env, fuel).value)
  {
  }

  /** Applying anything but a function fails, naming the value and the arguments. */
  lemma NotCallableValue(callee: Expr, args: seq<Expr>, env: Env, fuel: nat)
    requires !(callee.Id? && callee.name in Operators)
    requires Eval(callee, env, fuel).Ok? && !Eval(callee, env, fuel).value.Fn?
    requires EvalList(args, env, fuel).Ok?
    ensures Eval(App(callee, args), env, fuel) ==
      Err(NotCallable(Eval(callee, env, fuel).value, EvalList(args, env, fuel).value))
  {
  }

  /**
   Calling a function checks the argument count and then runs the body under
   the caller's table extended by the parameter bindings: a parameter hides a
   caller binding of the same identifier, every other caller binding stays
   visible, and nothing else is bound.
   */
  lemma FunctionCall(callee: Expr, args: seq<Expr>, env: Env, fuel: nat, pars: seq<string>, body: Expr)
    requires !(callee.Id? && callee.name in Operators)
    requires Eval(callee, env, fuel) == Ok(Fn(pars, body)) && EvalList(args, env, fuel).Ok?
    ensures var vs := EvalList(args, env, fuel).value;
      |pars| != |vs| ==> Eval(App(callee, args), env, fuel) == Err(Arity(pars, vs))
    ensures var vs := EvalList(args, env, fuel).value;
      |pars| == |vs| && fuel == 0 ==> Eval(App(callee, args), env, fuel) == Err(OutOfFuel)
    ensures var vs := EvalList(args, env, fuel).value;
      |pars| == |vs| && fuel > 0 ==>
        exists callEnv: Env ::
          && Eval(App(callee, args), env, fuel) == Eval(body, callEnv, fuel - 1)
          && callEnv.Keys == env.Keys + ParamKeys(pars)
          && (forall i :: 0 <= i < |pars| && LastParameter(pars, i) ==> callEnv[Id(pars[i])] == vs[i])
          && (forall k :: k in env && k !in ParamKeys(pars) ==> callEnv[k] == env[k])
  {
    var vs := EvalList(args, env, fuel).value;
    assert Eval(App(callee, args), env, fuel) == Apply(Fn(pars, body), vs, env, fuel);
    ApplyUnfold(Fn(pars, body), vs, env, fuel);
    if |pars| == |vs| && fuel > 0 {
      var callEnv := Extend(env, Bind(pars, vs).value);
      CallEnvironment(pars, vs, env);
      assert Eval(App(callee, args), env, fuel) == Eval(body, callEnv, fuel - 1);
    }
  }

  /** The table a call's body runs under, as FunctionCall describes it. */
  lemma CallEnvironment(pars: seq<string>, vs: seq<Expr>, env: Env)
    requires |pars| == |vs|
    ensures var callEnv := Extend(env, Bind(pars, vs).value);
      && callEnv.Keys == env.Keys + ParamKeys(pars)
      && (forall i :: 0 <= i < |pars| && LastParameter(pars, i) ==> callEnv[Id(pars[i])] == vs[i])
      && (forall k :: k in env && k !in ParamKeys(pars) ==> callEnv[k] == env[k])
  {
    BindBindsParameters(pars, vs);
  }

  /** A parameter shadows any caller binding of the same identifier. */
  lemma ParameterShadows(pars: seq<string>, i: int, vs: seq<Expr>, env: Env, fuel: nat)
    requires 0 <= i < |pars| && LastParameter(pars, i) && |vs| == |pars| && fuel > 0
    ensures Apply(Fn(pars, Id(pars[i])), vs, env, fuel) == Ok(vs[i])
  {
    BindBindsParameters(pars, vs);
  }

  /** An identifier that is not a parameter resolves in the caller's table, or stands for itself. */
  lemma DynamicScope(pars: seq<string>, x: string, vs: seq<Expr>, env: Env, fuel: nat)
    requires x !in pars && |vs| == |pars| && fuel > 0
    ensures Apply(Fn(pars, Id(x)), vs, env, fuel) == Ok(Lookup(Id(x), env))
  {
    BindBindsParameters(pars, vs);
  }

  // ---------------------------------------------------------------------------
  // The call depth bound

  /** The three outcomes of applying a value: not callable, wrong argument count, or the body's value. */
  lemma ApplyUnfold(f: Expr, vs: seq<Expr>, env: Env, fuel: nat)
    ensures !f.Fn? ==> Apply(f, vs, env, fuel) == Err(NotCallable(f, vs))
    ensures f.Fn? && |f.pars| != |vs| ==> Apply(f, vs, env, fuel) == Err(Arity(f.pars, vs))
    ensures f.Fn? && |f.pars| == |vs| && fuel == 0 ==> Apply(f, vs, env, fuel) == Err(OutOfFuel)
    ensures f.Fn? && |f.pars| == |vs| && fuel > 0 ==>
      Apply(f, vs, env, fuel) == Eval(f.body, Extend(env, Bind(f.pars, vs).value), fuel - 1)
  {
  }

  /** More fuel never changes an evaluation that finished without running out of it. */
  lemma {:induction false} EvalFuelMonotone(e: Expr, env: Env, fuel: nat, more: nat)
    requires fuel <= more && Finished(Eval(e, env, fuel))
    ensures Eval(e, env, more) == Eval(e, env, fuel)
    decreases fuel, 1, e
  {
    match e
    case Id(_) =>
    case Num(_) =>
    case Str(_) =>
    case Fn(_, _) =>
    case List(items) =>
      EvalListFuelMonotone(items, env, fuel, more);
    case Cases(cs) =>
      FirstMatchFuelMonotone(cs, env, fuel, more);
    case App(callee, args) =>
      EvalFuelMonotone(callee, env, fuel, more);
      if Eval(callee, env, fuel).Ok? {
        EvalListFuelMonotone(args, env, fuel, more);
        if EvalList(args, env, fuel).Ok? && !(callee.Id? && callee.name in Operators) {
          ApplyFuelMonotone(Eval(callee, env, fuel).value, EvalList(args, env, fuel).value, env, fuel, more);
        }
      }
  }

  lemma {:induction false} EvalListFuelMonotone(es: seq<Expr>, env: Env, fuel: nat, more: nat)
    requires fuel <= more && Finished(EvalList(es, env, fuel))
    ensures EvalList(es, env, more) == EvalList(es, env, fuel)
    decreases fuel, 1, es
  {
    if |es| > 0 {
      EvalFuelMonotone(es[0], env, fuel, more);
      if Eval(es[0], env, fuel).Ok? {
        EvalListFuelMonotone(es[1..], env, fuel, more);
      }
    }
  }

  lemma {:induction false} MatchesFuelMonotone(c: Case, env: Env, fuel: nat, more: nat)
    requires fuel <= more && Finished(Matches(c, env, fuel))
    ensures Matches(c, env, more) == Matches(c, env, fuel)
    decreases fuel, 1, c
  {
    EvalFuelMonotone(c.cond, env, fuel, more);
    if Eval(c.cond, env, fuel).Ok? && Truthy(Eval(c.cond, env, fuel).value) {
      EvalFuelMonotone(c.body, env, fuel, more);
    }
  }

  lemma {:induction false} FirstMatchFuelMonotone(cs: seq<Case>, env: Env, fuel: nat, more: nat)
    requires fuel <= more && Finished(FirstMatch(cs, env, fuel))
    ensures FirstMatch(cs, env, more) == FirstMatch(cs, env, fuel)
    decreases fuel, 1, cs
  {
    if |cs| > 0 {
      MatchesFuelMonotone(cs[0], env, fuel, more);
      if Matches(cs[0], env, fuel) == Ok(None) {
        FirstMatchFuelMonotone(cs[1..], env, fuel, more);
      }
    }
  }

  lemma {:induction false} ApplyFuelMonotone(f: Expr, vs: seq<Expr>, env: Env, fuel: nat, more: nat)
    requires fuel <= more && Finished(Apply(f, vs, env, fuel))
    ensures Apply(f, vs, env, more) == Apply(f, vs, env, fuel)
    decreases fuel, 0
  {
    if f.Fn? && |f.pars| == |vs| {
      ApplyUnfold(f, vs, env, fuel);
      assert fuel > 0;
      ApplyUnfold(f, vs, env, more);
      var callEnv := Extend(env, Bind(f.pars, vs).value);
      assert Apply(f, vs, env, fuel) == Eval(f.body, callEnv, fuel - 1);
      assert Apply(f, vs, env, more) == Eval(f.body, callEnv, more - 1);
      EvalFuelMonotone(f.body, callEnv, fuel - 1, more - 1);
    } else {
      ApplyUnfold(f, vs, env, fuel);
      ApplyUnfold(f, vs, env, more);
    }
  }


}

=== FILE: operators.dfy ===
/**
 The fixed operator table of EFPL: the six comparisons and four arithmetic
 operators that an application dispatches to when its unevaluated callee is
 one of their identifiers.

 Comparisons follow the value semantics of Python, the language the
 interpreter is written in: identifiers and strings are compared as text,
 numbers numerically, lists element by element (first differing element,
 else length). Every other pairing is not ordered.
 */
module OperatorTable {
  import opened Syntax
  import opened Outcomes

  /** Value equality as the `==` operator and guard matching use it. */
  function ValueEq(a: Expr, b: Expr): bool
    decreases a
  {
    if IsText(a) && IsText(b) then TextOf(a) == TextOf(b)
    else if a.List? && b.List? then ValueEqList(a.items, b.items)
    else a == b
  }

  function ValueEqList(xs: seq<Expr>, ys: seq<Expr>): bool
    decreases xs
  {
    if |xs| == 0 || |ys| == 0 then |xs| == |ys|
    else ValueEq(xs[0], ys[0]) && ValueEqList(xs[1..], ys[1..])
  }

  datatype Ordering = Lt | Eq | Gt {
    function Flip(): Ordering {
      match this
      case Lt => Gt
      case Eq => Eq
      case Gt => Lt
    }
  }

  function FlipOption(o: Option<Ordering>): Option<Ordering> {
    if o.Some? then Some(o.value.Flip()) else None
  }

  function CompareInts(m: int, n: int): Ordering {
    if m < n then Lt else if m == n then Eq else Gt
  }

  /** Lexicographic comparison of texts by code point, shorter prefix first. */
  function LexCmp(s: string, t: string): Ordering
  {
    if |s| == 0 || |t| == 0 then CompareInts(|s|, |t|)
    else if s[0] < t[0] then Lt
    else if s[0] > t[0] then Gt
    else LexCmp(s[1..], t[1..])
  }

  /** Three-way comparison; None where Python refuses to order the operands. */
  function Cmp(a: Expr, b: Expr): Option<Ordering>
    decreases a
  {
    if a.Num? && b.Num? then
      Some(if a.val < b.val then Lt else if a.val == b.val then Eq else Gt)
    else if IsText(a) && IsText(b) then Some(LexCmp(TextOf(a), TextOf(b)))
    else if a.List? && b.List? then CmpList(a.items, b.items)
    else None
  }

  /** Tuple comparison: the first pair that is not ValueEq decides, else the lengths. */
  function CmpList(xs: seq<Expr>, ys: seq<Expr>): Option<Ordering>
    decreases xs
  {
    if |xs| == 0 || |ys| == 0 then Some(CompareInts(|xs|, |ys|))
    else if ValueEq(xs[0], ys[0]) then CmpList(xs[1..], ys[1..])
    else Cmp(xs[0], ys[0])
  }

  function Bool(b: bool): Expr {
    if b then True else False
  }

  /** Whether a comparison operator accepts the given three-way outcome. */
  function Accepts(op: string, o: Ordering): bool
    requires op in Comparisons - {"==", "<>"}
  {
    match op
    case "<=" => o != Gt
    case ">=" => o != Lt
    case "<" => o == Lt
    case ">" => o == Gt
  }

  function Arith(op: string, x: real, y: real): Result<Expr>
    requires op in Arithmetic
  {
    match op
    case "+" => Ok(Num(x + y))
    case "-" => Ok(Num(x - y))
    case "*" => Ok(Num(x * y))
    case "/" => if y == 0.0 then Err(DivByZero) else Ok(Num(x / y))
  }

  /**
   Applies operator `op` to the evaluated arguments. Only the first two
   arguments are used; fewer than two is an error.
   */
  function ApplyOperator(op: string, vs: seq<Expr>): (r: Result<Expr>)
    requires op in Operators
    ensures |vs| < 2 ==> r == Err(BadOperands(op, vs))
    ensures op in Comparisons && r.Ok? ==> r.value == True || r.value == False
    ensures op in Arithmetic && r.Ok? ==> r.value.Num? && vs[0].Num? && vs[1].Num?
    ensures op in {"==", "<>"} ==> (r.Ok? <==> |vs| >= 2)
    ensures r.Err? && r.error.BadOperands? ==> r.error.operands == vs[..if |vs| < 2 then |vs| else 2]
    ensures r.Err? && r.error.BadOperands? ==> r.error.op == op
  {
    if |vs| < 2 then Err(BadOperands(op, vs))
    else
      var a, b := vs[0], vs[1];
      if op == "==" then Ok(Bool(ValueEq(a, b)))
      else if op == "<>" then Ok(Bool(!ValueEq(a, b)))
      else if op in Comparisons then
        var o := Cmp(a, b);
        if o.None? then Err(BadOperands(op, [a, b])) else Ok(Bool(Accepts(op, o.value)))
      else if a.Num? && b.Num? then Arith(op, a.val, b.val)
      else Err(BadOperands(op, [a, b]))
  }

  // ---------------------------------------------------------------------------
  // ValueEq is an equivalence relation that extends structural equality

  lemma {:induction false} ValueEqReflexive(a: Expr)
    ensures ValueEq(a, a)
    decreases a
  {
    if a.List? {
      ValueEqListReflexive(a.items);
    }
  }

  lemma {:induction false} ValueEqListReflexive(xs: seq<Expr>)
    ensures ValueEqList(xs, xs)
    decreases xs
  {
    if |xs| > 0 {
      ValueEqReflexive(xs[0]);
      ValueEqListReflexive(xs[1..]);
    }
  }

  lemma {:induction false} ValueEqSymmetric(a: Expr, b: Expr)
    ensures ValueEq(a, b) == ValueEq(b, a)
    decreases a
  {
    if a.List? && b.List? {
      ValueEqListSymmetric(a.items, b.items);
    }
  }

  lemma {:induction false} ValueEqListSymmetric(xs: seq<Expr>, ys: seq<Expr>)
    ensures ValueEqList(xs, ys) == ValueEqList(ys, xs)
    decreases xs
  {
    if |xs| > 0 && |ys| > 0 {
      ValueEqSymmetric(xs[0], ys[0]);
      ValueEqListSymmetric(xs[1..], ys[1..]);
    }
  }

  lemma {:induction false} ValueEqTransitive(a: Expr, b: Expr, c: Expr)
    requires ValueEq(a, b) && ValueEq(b, c)
    ensures ValueEq(a, c)
    decreases a
  {
    if a.List? && b.List? && c.List? {
      ValueEqListTransitive(a.items, b.items, c.items);
    }
  }

  lemma {:induction false} ValueEqListTransitive(xs: seq<Expr>, ys: seq<Expr>, zs: seq<Expr>)
    requires ValueEqList(xs, ys) && ValueEqList(ys, zs)
    ensures ValueEqList(xs, zs)
    decreases xs
  {
    if |xs| > 0 && |ys| > 0 && |zs| > 0 {
      ValueEqTransitive(xs[0], ys[0], zs[0]);
      ValueEqListTransitive(xs[1..], ys[1..], zs[1..]);
    }
  }

  /** An identifier and a string with the same text are equal values; nothing else equals them. */
  lemma ValueEqText(a: Expr, t: string)
    ensures ValueEq(a, Id(t)) <==> a == Id(t) || a == Str(t)
  {
  }

  // ---------------------------------------------------------------------------
  // Cmp agrees with ValueEq and is antisymmetric

  lemma {:induction false} LexCmpEq(s: string, t: string)
    ensures LexCmp(s, t) == Eq <==> s == t
  {
    if |s| > 0 && |t| > 0 && s[0] == t[0] {
      LexCmpEq(s[1..], t[1..]);
      assert s == [s[0]] + s[1..] && t == [t[0]] + t[1..];
    }
  }

  lemma {:induction false} LexCmpFlip(s: string, t: string)
    ensures LexCmp(t, s) == LexCmp(s, t).Flip()
  {
    if |s| > 0 && |t| > 0 && s[0] == t[0] {
      LexCmpFlip(s[1..], t[1..]);
    }
  }

  /** Where two values are ordered, they compare Eq exactly when they are equal values. */
  lemma {:induction false} CmpEqIsValueEq(a: Expr, b: Expr)
    requires Cmp(a, b).Some?
    ensures Cmp(a, b).value == Eq <==> ValueEq(a, b)
    decreases a
  {
    if IsText(a) && IsText(b) {
      LexCmpEq(TextOf(a), TextOf(b));
    } else if a.List? && b.List? {
      CmpListEqIsValueEqList(a.items, b.items);
    }
  }

  lemma {:induction false} CmpListEqIsValueEqList(xs: seq<Expr>, ys: seq<Expr>)
    requires CmpList(xs, ys).Some?
    ensures CmpList(xs, ys).value == Eq <==> ValueEqList(xs, ys)
    decreases xs
  {
    if |xs| > 0 && |ys| > 0 {
      if ValueEq(xs[0], ys[0]) {
        CmpListEqIsValueEqList(xs[1..], ys[1..]);
      } else {
        CmpEqIsValueEq(xs[0], ys[0]);
      }
    }
  }

  /** Swapping the operands swaps Lt and Gt and keeps refusals. */
  lemma {:induction false} CmpFlip(a: Expr, b: Expr)
    ensures Cmp(b, a) == FlipOption(Cmp(a, b))
    decreases a
  {
    if IsText(a) && IsText(b) {
      LexCmpFlip(TextOf(a), TextOf(b));
    } else if a.List? && b.List? {
      CmpListFlip(a.items, b.items);
    }
  }

  lemma {:induction false} CmpListFlip(xs: seq<Expr>, ys: seq<Expr>)
    ensures CmpList(ys, xs) == FlipOption(CmpList(xs, ys))
    decreases xs
  {
    if |xs| > 0 && |ys| > 0 {
      ValueEqSymmetric(xs[0], ys[0]);
      if ValueEq(xs[0], ys[0]) {
        CmpListFlip(xs[1..], ys[1..]);
      } else {
        CmpFlip(xs[0], ys[0]);
      }
    }
  }

  // ---------------------------------------------------------------------------
  // The operators, related to each other

  /** Arguments beyond the second are ignored. */
  lemma OperatorUsesFirstTwo(op: string, vs: seq<Expr>)
    requires op in Operators && |vs| >= 2
    ensures ApplyOperator(op, vs) == ApplyOperator(op, vs[..2])
  {
  }

  /** `<>` is the negation of `==`, and neither ever fails on two operands. */
  lemma NotEqualNegatesEqual(a: Expr, b: Expr)
    ensures ApplyOperator("==", [a, b]).Ok? && ApplyOperator("<>", [a, b]).Ok?
    ensures ApplyOperator("<>", [a, b]).value == True <==> ApplyOperator("==", [a, b]).value == False
  {
  }

  /** `>` and `>=` are `<` and `<=` with the operands swapped, failures included. */
  lemma {:induction false} MirroredComparisons(a: Expr, b: Expr)
    ensures ApplyOperator(">", [a, b]).Ok? <==> ApplyOperator("<", [b, a]).Ok?
    ensures ApplyOperator(">", [a, b]).Ok? ==> ApplyOperator(">", [a, b]) == ApplyOperator("<", [b, a])
    ensures ApplyOperator(">=", [a, b]).Ok? <==> ApplyOperator("<=", [b, a]).Ok?
    ensures ApplyOperator(">=", [a, b]).Ok? ==> ApplyOperator(">=", [a, b]) == ApplyOperator("<=", [b, a])
  {
    CmpFlip(a, b);
  }

  /** Where `<=` succeeds it holds exactly when `<` or `==` holds; `<` and `==` never both hold. */
  lemma {:induction false} LessEqualIsLessOrEqual(a: Expr, b: Expr)
    requires ApplyOperator("<=", [a, b]).Ok?
    ensures ApplyOperator("<", [a, b]).Ok?
    ensures ApplyOperator("<=", [a, b]).value == True <==>
      ApplyOperator("<", [a, b]).value == True || ApplyOperator("==", [a, b]).value == True
    ensures !(ApplyOperator("<", [a, b]).value == True && ApplyOperator("==", [a, b]).value == True)
  {
    CmpEqIsValueEq(a, b);
  }

  /** Numbers are ordered by value. */
  lemma NumberComparisons(x: real, y: real)
    ensures ApplyOperator("<", [Num(x), Num(y)]) == Ok(Bool(x < y))
    ensures ApplyOperator("<=", [Num(x), Num(y)]) == Ok(Bool(x <= y))
    ensures ApplyOperator(">", [Num(x), Num(y)]) == Ok(Bool(x > y))
    ensures ApplyOperator(">=", [Num(x), Num(y)]) == Ok(Bool(x >= y))
    ensures ApplyOperator("==", [Num(x), Num(y)]) == Ok(Bool(x == y))
  {
  }

  /** Subtraction undoes addition and division undoes multiplication by a nonzero number. */
  lemma ArithmeticRoundTrip(x: real, y: real)
    ensures ApplyOperator("-", [ApplyOperator("+", [Num(x), Num(y)]).value, Num(y)]) == Ok(Num(x))
    ensures y != 0.0 ==>
      ApplyOperator("/", [ApplyOperator("*", [Num(x), Num(y)]).value, Num(y)]) == Ok(Num(x))
    ensures ApplyOperator("/", [Num(x), Num(0.0)]) == Err(DivByZero)
  {
    ArithOnNumbers("+", x, y);
    ArithOnNumbers("-", x + y, y);
    ArithOnNumbers("/", x, 0.0);
    if y != 0.0 {
      QuotientOfProduct(x, y);
    }
  }

  lemma QuotientOfProduct(x: real, y: real)
    requires y != 0.0
    ensures ApplyOperator("/", [ApplyOperator("*", [Num(x), Num(y)]).value, Num(y)]) == Ok(Num(x))
  {
    var p := x * y;
    ArithOnNumbers("*", x, y);
    assert ApplyOperator("*", [Num(x), Num(y)]).value == Num(p);
    ArithOnNumbers("/", p, y);
    assert ApplyOperator("/", [Num(p), Num(y)]) == Ok(Num(p / y));
    DivisionUndoesMultiplication(x, y);
  }

  lemma ArithOnNumbers(op: string, x: real, y: real)
    requires op in Arithmetic
    ensures ApplyOperator(op, [Num(x), Num(y)]) == Arith(op, x, y)
  {
  }

  lemma DivisionUndoesMultiplication(x: real, y: real)
    requires y != 0.0
    ensures (x * y) / y == x
  {
  }
}

=== FILE: program.dfy ===
/**
 An EFPL program: its top-level definitions, the definition table built from
 them, and the entry point, which applies `main` to no arguments with the
 definition table as the environment.

 A definition binds its name to the expression the parser produced for it:
 a constant is bound to its expression as written (not to its value), and a
 function definition to an `Fn`.
 */
module Program {
  import opened Syntax
  import opened Outcomes
  import opened Binding
  import opened Evaluator
  import opened EvaluatorProperties

  datatype Def = Def(name: string, value: Expr)

  /** The definitions as (identifier, value) pairs, in source order. */
  function Pairs(defs: seq<Def>): (ps: seq<(Expr, Expr)>) {
    seq(|defs|, i requires 0 <= i < |defs| => (Id(defs[i].name), defs[i].value))
  }

  /** The definition table; a later definition of a name replaces an earlier one. */
  function Table(defs: seq<Def>): Env {
    FromPairs(Pairs(defs))
  }

  /** The default entry application: `main` with no arguments. */
  const MainCall: Expr := App(Id("main"), [])

  /** Evaluates `app` (by default the call of `main`) against the definition table. */
  function Run(defs: seq<Def>, fuel: nat, app: Expr := MainCall): Result<Expr> {
    Eval(app, Table(defs), fuel)
  }

  /** The table binds exactly the defined names, each to the value of its last definition. */
  lemma TableBindsLastDefinition(defs: seq<Def>)
    ensures Table(defs).Keys == set d | d in defs :: Id(d.name)
    ensures forall i :: 0 <= i < |defs| && LastForKey(Pairs(defs), i) ==> Table(defs)[Id(defs[i].name)] == defs[i].value
  {
    var ps := Pairs(defs);
    FromPairsBindsLast(ps);
    assert Table(defs).Keys == set d | d in defs :: Id(d.name) by {
      forall d | d in defs ensures Id(d.name) in Table(defs) {
        var i :| 0 <= i < |defs| && defs[i] == d;
        assert ps[i].0 == Id(d.name);
      }
    }
    forall i | 0 <= i < |defs| && LastForKey(ps, i)
      ensures Table(defs)[Id(defs[i].name)] == defs[i].value
    {
      assert ps[i] == (Id(defs[i].name), defs[i].value);
    }
  }

  /** Appending a definition rebinds its name and leaves every other binding as it was. */
  lemma LaterDefinitionReplaces(defs: seq<Def>, d: Def)
    ensures Table(defs + [d]) == Table(defs)[Id(d.name) := d.value]
  {
    assert Pairs(defs + [d]) == Pairs(defs) + [(Id(d.name), d.value)];
    AppendOverrides(Pairs(defs), Id(d.name), d.value);
  }

  /**
   Running a program calls `main` under the definition table: a missing or
   non-function `main` is not callable, a `main` with parameters is an arity
   error, and otherwise the result is its body's value under the table.
   */
  lemma RunCallsMain(defs: seq<Def>, fuel: nat)
    ensures Id("main") !in Table(defs) ==> Run(defs, fuel) == Err(NotCallable(Id("main"), []))
    ensures Id("main") in Table(defs) && !Table(defs)[Id("main")].Fn? ==>
      Run(defs, fuel) == Err(NotCallable(Table(defs)[Id("main")], []))
    ensures Id("main") in Table(defs) && Table(defs)[Id("main")].Fn? && |Table(defs)[Id("main")].pars| > 0 ==>
      Run(defs, fuel) == Err(Arity(Table(defs)[Id("main")].pars, []))
    ensures Id("main") in Table(defs) && Table(defs)[Id("main")].Fn? && |Table(defs)[Id("main")].pars| == 0 ==>
      Run(defs, fuel) == if fuel == 0 then Err(OutOfFuel) else Eval(Table(defs)[Id("main")].body, Table(defs), fuel - 1)
  {
    var env := Table(defs);
    var main := Lookup(Id("main"), env);
    assert "main" !in Operators;
    assert Run(defs, fuel) == Eval(App(Id("main"), []), env, fuel);
    assert Eval(Id("main"), env, fuel) == Ok(main);
    assert EvalList([], env, fuel) == Ok([]);
    assert Eval(App(Id("main"), []), env, fuel) == Apply(main, [], env, fuel);
    ApplyUnfold(main, [], env, fuel);
    if main.Fn? && |main.pars| == 0 {
      assert Bind(main.pars, []).value == map[];
      assert Extend(env, map[]) == env;
    }
  }
}

=== FILE: scenarios.dfy ===
/**
 The results of whole programs under the model, each stating the outcome
 the language promises for it. Infix operators are applications of the operator
 identifier to two arguments, as the parser builds them.
 */
module Scenarios {
  import opened Syntax
  import opened Outcomes
  import opened OperatorTable
  import opened Binding
  import opened Evaluator
  import opened EvaluatorProperties
  import opened Program

  function Infix(op: string, a: Expr, b: Expr): Expr {
    App(Id(op), [a, b])
  }

  function Call(name: string, args: seq<Expr>): Expr {
    App(Id(name), args)
  }

  /** `main() = e` */
  function Main(e: Expr): Def {
    Def("main", Fn([], e))
  }

  // ---------------------------------------------------------------------------
  // Evaluation steps used by the scenarios

  lemma EvalOne(a: Expr, env: Env, fuel: nat)
    requires Eval(a, env, fuel).Ok?
    ensures EvalList([a], env, fuel) == Ok([Eval(a, env, fuel).value])
  {
    EvalListPointwise([a], env, fuel);
    var want: seq<Expr> := [Eval(a, env, fuel).value];
    assert EvalList([a], env, fuel).value == want;
  }

  lemma EvalTwo(a: Expr, b: Expr, env: Env, fuel: nat)
    requires Eval(a, env, fuel).Ok? && Eval(b, env, fuel).Ok?
    ensures EvalList([a, b], env, fuel) == Ok([Eval(a, env, fuel).value, Eval(b, env, fuel).value])
  {
    EvalListPointwise([a, b], env, fuel);
    var r := EvalList([a, b], env, fuel);
    assert |r.value| == 2;
    var want: seq<Expr> := [Eval(a, env, fuel).value, Eval(b, env, fuel).value];
    assert r.value == want;
  }

  /** An infix operator applied to two operands that evaluate. */
  lemma OperatorStep(op: string, a: Expr, b: Expr, env: Env, fuel: nat)
    requires op in Operators && Eval(a, env, fuel).Ok? && Eval(b, env, fuel).Ok?
    ensures Eval(Infix(op, a, b), env, fuel) == ApplyOperator(op, [Eval(a, env, fuel).value, Eval(b, env, fuel).value])
  {
    EvalTwo(a, b, env, fuel);
    OperatorsNotShadowable(op, [a, b], env, fuel);
  }

  /** A call of a defined function: its value applied to the arguments' values. */
  lemma CallStep(name: string, args: seq<Expr>, env: Env, fuel: nat)
    requires name !in Operators && Id(name) in env && EvalList(args, env, fuel).Ok?
    ensures Eval(Call(name, args), env, fuel) == Apply(env[Id(name)], EvalList(args, env, fuel).value, env, fuel)
  {
    var callee := Id(name);
    assert Eval(callee, env, fuel) == Ok(env[callee]);
    assert !(callee.Id? && callee.name in Operators);
    assert Eval(App(callee, args), env, fuel) == Apply(env[callee], EvalList(args, env, fuel).value, env, fuel);
  }

  /** One parameter bound to one argument. */
  lemma BindOne(p: string, v: Expr)
    ensures Bind([p], [v]) == Ok(map[Id(p) := v])
  {
    var r := Bind([p], [v]);
    BindBindsParameters([p], [v]);
    assert LastParameter([p], 0);
    assert ParamKeys([p]) == {Id(p)};
    assert r.value == map[Id(p) := v];
  }

  /** A function of one parameter applied to one value. */
  lemma ApplyOne(p: string, body: Expr, v: Expr, env: Env, fuel: nat)
    requires fuel > 0
    ensures Apply(Fn([p], body), [v], env, fuel) == Eval(body, env[Id(p) := v], fuel - 1)
  {
    ApplyUnfold(Fn([p], body), [v], env, fuel);
    BindOne(p, v);
    assert Extend(env, map[Id(p) := v]) == env[Id(p) := v];
  }

  /** A function of no parameters applied to no values. */
  lemma ApplyNone(body: Expr, env: Env, fuel: nat)
    requires fuel > 0
    ensures Apply(Fn([], body), [], env, fuel) == Eval(body, env, fuel - 1)
  {
    ApplyUnfold(Fn([], body), [], env, fuel);
    assert Bind([], []).value == map[];
    assert Extend(env, map[]) == env;
  }

  lemma TableOne(d: Def)
    ensures Table([d]) == map[Id(d.name) := d.value]
  {
    var ps := Pairs([d]);
    assert ps == [(Id(d.name), d.value)];
    assert ps[..0] == [];
    assert FromPairs(ps) == FromPairs([])[Id(d.name) := d.value];
  }

  lemma TableTwo(d1: Def, d2: Def)
    ensures Table([d1, d2]) == map[Id(d1.name) := d1.value, Id(d2.name) := d2.value]
  {
    TableOne(d1);
    assert [d1] + [d2] == [d1, d2];
    LaterDefinitionReplaces([d1], d2);
  }

  lemma TableThree(d1: Def, d2: Def, d3: Def)
    ensures Table([d1, d2, d3]) == map[Id(d1.name) := d1.value, Id(d2.name) := d2.value, Id(d3.name) := d3.value]
  {
    TableTwo(d1, d2);
    assert [d1, d2] + [d3] == [d1, d2, d3];
    LaterDefinitionReplaces([d1, d2], d3);
  }

  /** `main` calls a one-parameter function with a number: the run is that function's body under the call's table. */
  lemma MainCallsWithNumber(defs: seq<Def>, name: string, p: string, body: Expr, n: real, fuel: nat)
    requires name !in Operators && Id(name) in Table(defs) && Table(defs)[Id(name)] == Fn([p], body)
    requires Id("main") in Table(defs) && Table(defs)[Id("main")] == Fn([], Call(name, [Num(n)]))
    requires Num(n) !in Table(defs)
    ensures Run(defs, fuel + 2) == Eval(body, Table(defs)[Id(p) := Num(n)], fuel)
  {
    var env := Table(defs);
    RunCallsMain(defs, fuel + 2);
    EvalOne(Num(n), env, fuel + 1);
    CallStep(name, [Num(n)], env, fuel + 1);
    ApplyOne(p, body, Num(n), env, fuel + 1);
  }

  /** A program of one function `f` and a `main` that calls it with a number. */
  lemma CallFromMain(f: Def, p: string, body: Expr, n: real, fuel: nat)
    requires f.name != "main" && f.name !in Operators && f.value == Fn([p], body)
    ensures var defs := [f, Main(Call(f.name, [Num(n)]))];
      Run(defs, fuel + 2) == Eval(body, Table(defs)[Id(p) := Num(n)], fuel)
  {
    var defs := [f, Main(Call(f.name, [Num(n)]))];
    TableTwo(defs[0], defs[1]);
    MainCallsWithNumber(defs, f.name, p, body, n, fuel);
  }

  // ---------------------------------------------------------------------------
  // Programs

  /** `main() = a + b * c` yields a + (b * c): the product is an operand of the sum. */
  lemma SumOfProduct(a: real, b: real, c: real)
    ensures Run([Main(Infix("+", Num(a), Infix("*", Num(b), Num(c))))], 1) == Ok(Num(a + b * c))
  {
    var prod := Infix("*", Num(b), Num(c));
    var d := Main(Infix("+", Num(a), prod));
    TableOne(d);
    var env := Table([d]);
    RunCallsMain([d], 1);
    OperatorStep("*", Num(b), Num(c), env, 0);
    ArithOnNumbers("*", b, c);
    OperatorStep("+", Num(a), prod, env, 0);
    ArithOnNumbers("+", a, b * c);
  }

  /** `main() = (a + b) * c` yields (a + b) * c: the parenthesised sum is an operand of the product. */
  lemma ProductOfSum(a: real, b: real, c: real)
    ensures Run([Main(Infix("*", Infix("+", Num(a), Num(b)), Num(c)))], 1) == Ok(Num((a + b) * c))
  {
    var sum := Infix("+", Num(a), Num(b));
    var d := Main(Infix("*", sum, Num(c)));
    TableOne(d);
    var env := Table([d]);
    RunCallsMain([d], 1);
    OperatorStep("+", Num(a), Num(b), env, 0);
    ArithOnNumbers("+", a, b);
    assert Eval(sum, env, 0) == Ok(Num(a + b));
    assert Eval(Num(c), env, 0) == Ok(Num(c));
    OperatorStep("*", sum, Num(c), env, 0);
    var operands: seq<Expr> := [Num(a + b), Num(c)];
    assert [Eval(sum, env, 0).value, Eval(Num(c), env, 0).value] == operands;
    ArithOnNumbers("*", a + b, c);
    assert ApplyOperator("*", operands) == Arith("*", a + b, c);
    assert Arith("*", a + b, c) == Ok(Num((a + b) * c));
    assert Eval(Infix("*", sum, Num(c)), env, 0) == Ok(Num((a + b) * c));
    assert Run([d], 1) == Eval(Infix("*", sum, Num(c)), env, 0);
  }

  /** `sign(x) | x <= 0 = "neg" | true = "pos"`: the first alternative whose condition holds wins. */
  function Sign(): Def {
    Def("sign", Fn(["x"], Cases([
      Case(Infix("<=", Id("x"), Num(0.0)), Str("neg")),
      Case(Id("true"), Str("pos"))])))
  }

  /** Under a table binding `x` to `n`, the guarded body of `sign` takes the first alternative exactly when n <= 0. */
  lemma SignBody(n: real, env: Env)
    requires Id("x") in env && env[Id("x")] == Num(n)
    requires Num(0.0) !in env && Id("true") !in env && Id("neg") !in env && Id("pos") !in env
    ensures Eval(Sign().value.body, env, 0) == Ok(if n <= 0.0 then Str("neg") else Str("pos"))
  {
    var cs := Sign().value.body.cases;
    OperatorStep("<=", Id("x"), Num(0.0), env, 0);
    NumberComparisons(n, 0.0);
    assert Eval(cs[0].cond, env, 0) == Ok(Bool(n <= 0.0));
    TruthyIsTrue(True);
    TruthyIsTrue(False);
    if n <= 0.0 {
      assert CondHolds(cs[0], env, 0);
      assert Selects(cs, env, 0, 0);
      GuardSelected(cs, env, 0, 0);
    } else {
      assert CondFails(cs[0], env, 0);
      assert Eval(cs[1].cond, env, 0) == Ok(True);
      assert CondHolds(cs[1], env, 0);
      assert Selects(cs, env, 0, 1);
      GuardSelected(cs, env, 0, 1);
    }
  }

  /** `sign(n)` yields "neg" when n <= 0 and "pos" otherwise: the alternatives are tried in order. */
  lemma GuardOrder(n: real)
    ensures Run([Sign(), Main(Call("sign", [Num(n)]))], 2) == Ok(if n <= 0.0 then Str("neg") else Str("pos"))
  {
    var defs := [Sign(), Main(Call("sign", [Num(n)]))];
    var inner := Table(defs)[Id("x") := Num(n)];
    assert Run(defs, 2) == Eval(Sign().value.body, inner, 0) by {
      CallFromMain(Sign(), "x", Sign().value.body, n, 0);
    }
    assert inner == map[Id("sign") := Sign().value, Id("main") := defs[1].value, Id("x") := Num(n)] by {
      TableTwo(defs[0], defs[1]);
    }
    SignBody(n, inner);
  }

  /** `one(x) | x == k = 1` */
  function One(k: real): Def {
    Def("one", Fn(["x"], Cases([Case(Infix("==", Id("x"), Num(k)), Num(1.0))])))
  }

  /** Under a table binding `x` to a number other than `k`, the single alternative of `one` is rejected. */
  lemma OneRejects(k: real, n: real, env: Env)
    requires n != k && Id("x") in env && env[Id("x")] == Num(n) && Num(k) !in env
    ensures Eval(One(k).value.body, env, 0) == Err(NoMatch(env, One(k).value.body.cases))
  {
    var cs := One(k).value.body.cases;
    OperatorStep("==", Id("x"), Num(k), env, 0);
    assert !ValueEq(Num(n), Num(k));
    assert CondFails(cs[0], env, 0);
    GuardsExhausted(cs, env, 0);
  }

  /** `one(n)` with `n` other than `k`: no alternative matches, and the error carries the call's table. */
  lemma GuardNoMatch(k: real, n: real)
    requires n != k
    ensures var defs := [One(k), Main(Call("one", [Num(n)]))];
      Run(defs, 2) == Err(NoMatch(Table(defs)[Id("x") := Num(n)], One(k).value.body.cases))
  {
    var defs := [One(k), Main(Call("one", [Num(n)]))];
    CallFromMain(One(k), "x", One(k).value.body, n, 0);
    TableTwo(defs[0], defs[1]);
    OneRejects(k, n, Table(defs)[Id("x") := Num(n)]);
  }

  /** A two-parameter function called with one argument is an arity error naming both. */
  lemma ArityMismatch()
    ensures var pair := Def("pair", Fn(["a", "b"], List([Id("a"), Id("b")])));
      Run([pair, Main(Call("pair", [Num(1.0)]))], 2) == Err(Arity(["a", "b"], [Num(1.0)]))
  {
    var pair := Def("pair", Fn(["a", "b"], List([Id("a"), Id("b")])));
    var defs := [pair, Main(Call("pair", [Num(1.0)]))];
    TableTwo(defs[0], defs[1]);
    var env := Table(defs);
    RunCallsMain(defs, 2);
    EvalOne(Num(1.0), env, 1);
    CallStep("pair", [Num(1.0)], env, 1);
    ApplyUnfold(pair.value, [Num(1.0)], env, 1);
  }

  /**
   A table that binds `+` to a user function does not change what `1 + 2`
   means. No parsed definition can be named `+`; the tree is built directly.
   */
  lemma OperatorRedefined()
    ensures Run([Def("+", Fn(["a", "b"], Str("user"))), Main(Infix("+", Num(1.0), Num(2.0)))], 1) == Ok(Num(3.0))
  {
    var defs := [Def("+", Fn(["a", "b"], Str("user"))), Main(Infix("+", Num(1.0), Num(2.0)))];
    TableTwo(defs[0], defs[1]);
    var env := Table(defs);
    RunCallsMain(defs, 1);
    OperatorStep("+", Num(1.0), Num(2.0), env, 0);
  }

  /** `[f(n), x]` where `f(x) = x` and `x` is bound to `m`: the parameter hides `x` only inside the call. */
  lemma ShadowedThenVisible(env: Env, m: real, n: real)
    requires Id("f") in env && env[Id("f")] == Fn(["x"], Id("x"))
    requires Id("x") in env && env[Id("x")] == Num(m) && Num(n) !in env
    ensures Eval(List([Call("f", [Num(n)]), Id("x")]), env, 1) == Ok(List([Num(n), Num(m)]))
  {
    EvalOne(Num(n), env, 1);
    CallStep("f", [Num(n)], env, 1);
    ApplyOne("x", Id("x"), Num(n), env, 1);
    assert Eval(Call("f", [Num(n)]), env, 1) == Ok(Num(n));
    assert Eval(Id("x"), env, 1) == Ok(Num(m));
    EvalTwo(Call("f", [Num(n)]), Id("x"), env, 1);
  }

  /** With `x = m` and `f(x) = x`, `main() = [f(n), x]` yields [n, m]. */
  lemma ParameterShadowsConstant(m: real, n: real)
    ensures Run([Def("x", Num(m)), Def("f", Fn(["x"], Id("x"))), Main(List([Call("f", [Num(n)]), Id("x")]))], 2)
      == Ok(List([Num(n), Num(m)]))
  {
    var defs := [Def("x", Num(m)), Def("f", Fn(["x"], Id("x"))), Main(List([Call("f", [Num(n)]), Id("x")]))];
    TableThree(defs[0], defs[1], defs[2]);
    RunCallsMain(defs, 2);
    ShadowedThenVisible(Table(defs), m, n);
  }

  /**
   With `g(u) = y` and `f(y) = g(0)`, calling `f(n)` yields n: `g` sees its
   caller's parameter.
   */
  lemma DynamicScoping(n: real)
    ensures var g := Def("g", Fn(["u"], Id("y")));
      var f := Def("f", Fn(["y"], Call("g", [Num(0.0)])));
      Run([g, f, Main(Call("f", [Num(n)]))], 3) == Ok(Num(n))
  {
    var g := Def("g", Fn(["u"], Id("y")));
    var f := Def("f", Fn(["y"], Call("g", [Num(0.0)])));
    var defs := [g, f, Main(Call("f", [Num(n)]))];
    var inner := Table(defs)[Id("y") := Num(n)];
    assert Run(defs, 3) == Eval(Call("g", [Num(0.0)]), inner, 1) by {
      TableThree(defs[0], defs[1], defs[2]);
      MainCallsWithNumber(defs, "f", "y", Call("g", [Num(0.0)]), n, 1);
    }
    assert inner == map[Id("g") := g.value, Id("f") := f.value, Id("main") := defs[2].value, Id("y") := Num(n)] by {
      TableThree(defs[0], defs[1], defs[2]);
    }
    CallerParameterVisible(inner, n);
  }

  /** Under a table binding `g(u) = y` and `y` to n, `g(0)` yields n. */
  lemma CallerParameterVisible(env: Env, n: real)
    requires Id("g") in env && env[Id("g")] == Fn(["u"], Id("y"))
    requires Id("y") in env && env[Id("y")] == Num(n) && Num(0.0) !in env
    ensures Eval(Call("g", [Num(0.0)]), env, 1) == Ok(Num(n))
  {
    EvalOne(Num(0.0), env, 1);
    CallStep("g", [Num(0.0)], env, 1);
    ApplyOne("u", Id("y"), Num(0.0), env, 1);
  }

  /** With `g(u) = y`, `main() = g(0)` yields the identifier `y` itself: nothing binds it. */
  lemma UnboundIdentifier()
    ensures Run([Def("g", Fn(["u"], Id("y"))), Main(Call("g", [Num(0.0)]))], 2) == Ok(Id("y"))
  {
    var defs := [Def("g", Fn(["u"], Id("y"))), Main(Call("g", [Num(0.0)]))];
    TableTwo(defs[0], defs[1]);
    var env := Table(defs);
    RunCallsMain(defs, 2);
    assert Num(0.0) !in env;
    EvalOne(Num(0.0), env, 1);
    CallStep("g", [Num(0.0)], env, 1);
    ApplyOne("u", Id("y"), Num(0.0), env, 1);
  }

  /** Of two definitions of `main`, the later one runs. */
  lemma LastDefinitionRuns()
    ensures Run([Main(Num(1.0)), Main(Num(2.0))], 1) == Ok(Num(2.0))
  {
    var defs := [Main(Num(1.0)), Main(Num(2.0))];
    TableTwo(defs[0], defs[1]);
    RunCallsMain(defs, 1);
  }

  /** A constant is bound to its expression as written: `c = 1 + 2` makes `main() = c` yield the sum unevaluated. */
  lemma ConstantsAreNotEvaluated()
    ensures Run([Def("c", Infix("+", Num(1.0), Num(2.0))), Main(Id("c"))], 1) == Ok(Infix("+", Num(1.0), Num(2.0)))
  {
    var defs := [Def("c", Infix("+", Num(1.0), Num(2.0))), Main(Id("c"))];
    TableTwo(defs[0], defs[1]);
    RunCallsMain(defs, 1);
  }

  /** With `x = n`, `main() = "x"` yields n: a string is looked up like the identifier of its text. */
  lemma StringNamesDefinition(n: real)
    ensures Run([Def("x", Num(n)), Main(Str("x"))], 1) == Ok(Num(n))
  {
    var defs := [Def("x", Num(n)), Main(Str("x"))];
    TableTwo(defs[0], defs[1]);
    RunCallsMain(defs, 1);
    StringFindsIdentifierBinding("x", Table(defs), 0);
  }

  /** Applying a number is not a call: `x = 5`, `main() = x(1)`. */
  lemma NumberNotCallable()
    ensures Run([Def("x", Num(5.0)), Main(Call("x", [Num(1.0)]))], 2) == Err(NotCallable(Num(5.0), [Num(1.0)]))
  {
    var defs := [Def("x", Num(5.0)), Main(Call("x", [Num(1.0)]))];
    TableTwo(defs[0], defs[1]);
    var env := Table(defs);
    RunCallsMain(defs, 2);
    EvalOne(Num(1.0), env, 1);
    CallStep("x", [Num(1.0)], env, 1);
    ApplyUnfold(Num(5.0), [Num(1.0)], env, 1);
  }

  /** `loop(u) = loop(u)` called from `main() = loop(0)` runs out of fuel whatever the bound. */
  lemma {:induction false} EndlessRecursion(fuel: nat)
    ensures var loop := Def("loop", Fn(["u"], Call("loop", [Id("u")])));
      Run([loop, Main(Call("loop", [Num(0.0)]))], fuel + 1) == Err(OutOfFuel)
  {
    var defs := [Def("loop", Fn(["u"], Call("loop", [Id("u")]))), Main(Call("loop", [Num(0.0)]))];
    TableTwo(defs[0], defs[1]);
    var env := Table(defs);
    RunCallsMain(defs, fuel + 1);
    LoopRunsOut(env, Num(0.0), fuel);
  }

  lemma {:induction false} LoopRunsOut(env: Env, arg: Expr, fuel: nat)
    requires Id("loop") in env && env[Id("loop")] == Fn(["u"], Call("loop", [Id("u")]))
    requires Eval(arg, env, fuel).Ok?
    ensures Eval(Call("loop", [arg]), env, fuel) == Err(OutOfFuel)
    decreases fuel
  {
    var v := Eval(arg, env, fuel).value;
    EvalOne(arg, env, fuel);
    CallStep("loop", [arg], env, fuel);
    ApplyUnfold(Fn(["u"], Call("loop", [Id("u")])), [v], env, fuel);
    if fuel > 0 {
      ApplyOne("u", Call("loop", [Id("u")]), v, env, fuel);
      var next := env[Id("u") := v];
      assert Eval(Id("u"), next, fuel - 1) == Ok(v);
      LoopRunsOut(next, Id("u"), fuel - 1);
    }
  }

  /**
   Operator outcomes: strings order by text, numbers by value, an identifier
   equals the string of the same text, a number and a string do not order,
   and division by zero is an error.
   */
  lemma OperatorExamples()
    ensures ApplyOperator("<", [Str("abc"), Str("abd")]) == Ok(True)
    ensures ApplyOperator(">=", [Num(2.0), Num(3.0)]) == Ok(False)
    ensures ApplyOperator("==", [Id("a"), Str("a")]) == Ok(True)
    ensures ApplyOperator("<", [Num(2.0), Str("a")]) == Err(BadOperands("<", [Num(2.0), Str("a")]))
    ensures ApplyOperator("/", [Num(2.0), Num(0.0)]) == Err(DivByZero)
  {
    assert "abc" == ['a', 'b', 'c'] && "abd" == ['a', 'b', 'd'];
    assert LexCmp("abc", "abd") == Lt by {
      assert "abc"[1..] == "bc" && "abd"[1..] == "bd";
      assert "bc"[1..] == "c" && "bd"[1..] == "d";
    }
  }
}

=== FILE: syntax.dfy ===
/**
 Abstract syntax of EFPL, the educational functional programming language.

 Every node kind of the interpreter is one constructor of `Expr`. Two node
 kinds of the interpreter have no constructor of their own: an argument list
 (`Args`) is the `args` sequence of an `App`, and a parameter list (`Pars`)
 is the `pars` sequence of names of an `Fn`; the grammar produces those lists
 nowhere else. A guard alternative (`Case`) is not an expression in the
 interpreter either, so it is a datatype of its own that only `Cases` holds.
 */
module Syntax {

  datatype Expr =
    | Id(name: string)                        // identifier; unbound ones are symbolic tags
    | Num(val: real)                          // number literal
    | Str(text: string)                       // string literal: the text between the quotes, escapes kept as written
    | List(items: seq<Expr>)                  // bracketed list
    | Fn(pars: seq<string>, body: Expr)       // function: parameter names and body
    | Cases(cases: seq<Case>)                 // guarded body of a function
    | App(callee: Expr, args: seq<Expr>)      // application, prefix or infix

  /** One guard alternative `| cond = body`. */
  datatype Case = Case(cond: Expr, body: Expr)

  /** The operator identifiers that application dispatches on before anything else. */
  const Comparisons: set<string> := {"==", "<>", "<=", ">=", "<", ">"}
  const Arithmetic: set<string> := {"+", "-", "*", "/"}
  const Operators: set<string> := Comparisons + Arithmetic

  /** The symbolic truth values that comparisons produce and guards test for. */
  const True: Expr := Id("true")
  const False: Expr := Id("false")

  /** Identifiers and strings are both text in the interpreter and compare as text. */
  predicate IsText(e: Expr) {
    e.Id? || e.Str?
  }

  function TextOf(e: Expr): string
    requires IsText(e)
  {
    if e.Id? then e.name else e.text
  }

  /** The node kinds that evaluate by looking themselves up in the environment. */
  predicate SelfEvaluating(e: Expr) {
    e.Id? || e.Num? || e.Str? || e.Fn?
  }
}

/**
 The error kinds an evaluation can end with, and the result type that carries
 them. Each error holds the context the interpreter's message reports.
 */
module Outcomes {
  import opened Syntax

  datatype Error =
    | Arity(pars: seq<string>, args: seq<Expr>)         // parameter and argument counts differ
    | NoMatch(env: map<Expr, Expr>, cases: seq<Case>)   // no guard condition held
    | NotCallable(callee: Expr, args: seq<Expr>)        // applying a value that is not a function
    | BadOperands(op: string, operands: seq<Expr>)      // operator given unusable operands
    | DivByZero                                         // division by a zero number
    | OutOfFuel                                         // call depth bound reached

  datatype Result<+T> = Ok(value: T) | Err(error: Error) {

    predicate IsFailure() {
      Err?
    }

    function PropagateFailure<U>(): Result<U>
      requires Err?
    {
      Err(error)
    }

    function Extract(): T
      requires Ok?
    {
      value
    }
  }

  /** An optional value: a guard search that found nothing, or an unordered pair of operands. */
  datatype Option<+T> = None | Some(value: T)

  /** True unless the evaluation was cut off by the call depth bound. */
  predicate Finished<T>(r: Result<T>) {
    !(r.Err? && r.error.OutOfFuel?)
  }
}
